=== FILE: README.md ===
# Albums API gateway: bearer-token gate and server assembly

A Dafny model of two parts of an Express JSON API for users, albums and photos:

- **The bearer-token gate** `verifyJWT` (`src/middleware/auth.mjs`). It reads the
  `Authorization` header and checks for the exact `Bearer ` prefix. It takes the
  token as the second space-separated field. The secret is `JWT_SECRET`, or
  `efrei` when that is unset or empty. The gate then answers 401, 403 or 500, or
  attaches the decoded claims to `req.user` and calls `next` once. `jwt.verify`
  is an oracle `(token, secret) -> Decoded | Rejected | Raised`. Because the
  secret is a string, the library calls its callback before it returns, so the
  gate runs as one sequential step.
- **The `Server` class** (`src/server.mjs`):
  - Configuration selection with its `development` fallback.
  - `dbConnect()`, which never throws.
  - `security()`, `middleware()` (the request logger is added only in
    development), `routes()` and `run()`.
  - The answers of the terminal error handler, `GET /status` and the 404
    catch-all.

  The Express app is an append-only list of stage descriptors in registration
  order. The database driver, `ALLOWED_ORIGINS`, the controllers' constructors
  and the clock are parameters.

The modules are `Wrappers` (Option, Result), `Strings` (`startsWith`,
`split`/`join` on one character, truthiness of an optional string), `Http` (JSON
bodies and responses), `Auth` and `Server`.

Behaviour of the code worth knowing:

- Neither the albums nor the photos controller imports `verifyJWT`, so the
  gate is modelled on its own, not as part of any route.
- A missing `process.argv[2]` looks up the configuration key `"undefined"`.
- If awaiting `mongoose.createConnection(...)` rejects, `dbConnect()` logs the
  error and returns with `connect` still `undefined`. The album and photo
  constructors then call `connect.model(...)` on `undefined`, so `run()`
  rejects with a TypeError from `routes()`.
  `Server.FailedConnectionAbortsInRoutes` states this. When the driver
  instead returns a connection object and reports the failure later as an
  `error` event, `connect` is set and `run()` resolves; the model counts that
  case as `Connected`.
- If no configuration entry is found, `dbConnect()` swallows the TypeError.
  `middleware()` then throws when it reads `this.config.type`, and `run()`
  rejects.
- The 500 path of the gate has two causes in the model: a verifier that throws
  before its callback runs, and a truthy header that is not a string, which
  has no `startsWith`.

## Model

| member | source | states |
|---|---|---|
| Strings.Split | src/middleware/auth.mjs:11 | `split(' ')` gives one more field than there are spaces, and no field contains a space |
| Strings.JoinSplit | src/middleware/auth.mjs:11 | joining the split fields with the separator restores the header exactly |
| Strings.SplitJoin | src/middleware/auth.mjs:11 | splitting a join of separator-free fields gives back those fields |
| Strings.SplitHead | src/middleware/auth.mjs:11 | the first split field is the text before the first separator |
| Auth.Token | src/middleware/auth.mjs:11 | `split(' ')[1]` of a `Bearer ` header always exists: it is the text after the prefix up to the next space, and it contains no space |
| Auth.TokenOfWord | src/middleware/auth.mjs:11 | a word after the prefix is the token when nothing or a space follows it, so `Bearer a b` gives `a`, while `Bearer ` and `Bearer  x` give the empty token |
| Auth.Secret | src/middleware/auth.mjs:13 | the secret is never empty; it is `JWT_SECRET` exactly when that value is truthy, and `efrei` otherwise, including for the empty string |
| Auth.VerifyJWT | src/middleware/auth.mjs:3-29 | the gate either answers or calls `next` exactly once, never both. An absent, empty, falsy or non-`Bearer ` header gets 401. A truthy non-string header gets 500. A verifier error gets 403 and leaves `req.user` unchanged. A verifier throw gets 500. A success sets `req.user` to the claims and calls `next` once without writing a response |
| Auth.VerifierNotConsulted | src/middleware/auth.mjs:7-8 | on a non-`Bearer ` header the outcome is the same whatever the verifier would say, and `next` is not called |
| Auth.VerifierSeesTokenAndSecret | src/middleware/auth.mjs:11-13 | the verifier is asked about one pair only: the extracted token and the chosen secret |
| Auth.MalformedExamples | src/middleware/auth.mjs:7-8 | an absent header, an empty header, `bearer x` and `Bearer` are all answered 401 |
| Auth.AnswersDistinct | src/middleware/auth.mjs:8-27 | the three answers differ from one another: they carry statuses 401, 403 and 500, each with its own `error` message |
| Auth.TokenDropsExtraWord | src/middleware/auth.mjs:11 | `Bearer a b` gives the token `a` |
| Auth.TokenOfBarePrefix | src/middleware/auth.mjs:11 | `Bearer ` gives the empty token |
| Auth.TokenAfterDoubledSpace | src/middleware/auth.mjs:11 | `Bearer  x` gives the empty token |
| Server.NewServer | src/server.mjs:18-21 | a new server has an empty app, no connection and no log, and holds the selected config |
| Server.SelectConfig | src/server.mjs:20 | the entry named by `argv[2]` when present, else the `development` entry; none only when both are missing |
| Server.DbConnect | src/server.mjs:23-67 | it never fails. It changes neither the app nor the config and always logs exactly one entry. On success it stores the handle; on failure, including a missing config, it keeps the old connection |
| Server.Security | src/server.mjs:70-86 | it appends exactly helmet and then the limiter (one hour, 100 requests, standard headers on, legacy headers off, the French `error` message), turns `x-powered-by` off, and leaves config, connection and log alone |
| Server.Middleware | src/server.mjs:88-110 | it appends stages and keeps what was already registered. The logger is among the new stages exactly in development. It fails exactly when there is no config, and then only with the `type` TypeError |
| Server.Construct | src/server.mjs:113-116 | the album and photo controllers throw the `model` TypeError without a connection. Otherwise a constructor either throws its own error or registers its controller with the current connection and changes nothing else |
| Server.Routes | src/server.mjs:112-133 | it succeeds exactly with a connection and no constructor throwing. It then appends users, albums, photos, `GET /status` and the 404 catch-all, in that order. Otherwise it fails with the first error in construction order |
| Server.Run | src/server.mjs:135-168 | startup succeeds exactly when a config exists, a connection is held after `dbConnect()`, and no controller constructor throws. The app then holds the earlier stages followed by helmet, limiter, compression, CORS, both parsers, the logger in development, users, albums, photos, status, 404 and the error handler, and `x-powered-by` is the only setting added to the disabled ones. The returned server keeps its config and the connection and log `dbConnect()` left. A failure returns no app. It rethrows the error of the stage that threw: the `type` TypeError without a config, otherwise the first constructor error in construction order (users, then the missing-connection TypeError, then albums, then photos). The log is the `dbConnect()` log followed by that failure |
| Server.LoggerIffDevelopment | src/server.mjs:104-109 | a started app contains the request logger exactly when the config type is `development` |
| Server.ErrorHandlerLast | src/server.mjs:149-163 | the terminal error handler is the last stage, and `run()` adds it only once |
| Server.CatchAllAfterRoutes | src/server.mjs:112-133 | the users, albums and photos controllers, then `GET /status`, come before the 404 catch-all |
| Server.FailedConnectionAbortsInRoutes | src/server.mjs:135-167 | when the users constructor does not throw, a failed first connection is logged. `run()` then rejects with the `model` TypeError and logs that failure last |
| Server.ConnectedStartupSucceeds | src/server.mjs:135-163 | with a connection and constructors that do not throw, startup succeeds, keeps the handle and logs only the success |
| Server.HandleError | src/server.mjs:150-157 | always 500. In production the body is the redacted `{error}`; otherwise it carries the fault's message, and a message-less fault serialises as the empty object `{}` |
| Server.RedactionIffProduction | src/server.mjs:152-156 | a fault's message reaches the client exactly when the config type is not `production` |
| Server.StatusResponse | src/server.mjs:119-124 | 200 with `status: online` and the clock reading as `timestamp`, and no other member |
| Server.StatusDiffersOnlyInTimestamp | src/server.mjs:119-124 | two `/status` answers differ only in `timestamp` |
| Server.NotFound | src/server.mjs:127-132 | 404 with `code: 404` and `message: Not Found`, and no other member |

## Left out

- The reconnection supervisor (src/server.mjs:32-62) is not modelled. This covers the `error` and `disconnected` listeners, the 5-second timers and the `SIGINT` close-and-exit. It is timer- and event-driven I/O, and it stores a Promise in `connect`.
- Helmet, the rate limiter, compression, CORS and the body parsers appear only as stage descriptors carrying the options `server.mjs` passes them. Their per-request behaviour lives in the libraries.
- Express dispatch is not modelled. The model has no matching of requests against stages, no short-circuiting and no `next(err)` routing.
- The console output of the gate's catch block, the error handler and the request logger is not modelled. `dbConnect()` and `run()` log only structured entries.
- Server.Run: a failed start returns the fault and the log only. Every stage registered before the throw stays on `this.app`, and that state is not modelled: helmet, the limiter, compression, CORS and both parsers when `middleware()` throws; those, the logger in development, and each controller already constructed when `routes()` throws. The disabled `x-powered-by` setting stays too.
- The clock is a parameter. `new Date().toISOString()` formatting and monotonicity are not modelled.
- `jwt.verify` is an oracle, so signature checking, expiry and the asynchronous path taken when the secret is a function are not modelled.
- Auth.VerifyJWT: the model does not cover a response written before the gate runs. It also does not cover `res.json` or `next` throwing inside the verifier's callback.
- Auth.VerifyJWT: a request whose `headers` object is itself missing is not modelled.
- Server.SelectConfig: the configuration table has only its own entries. An `argv[2]` naming an inherited property such as `constructor` is not modelled.
- The controllers' CRUD handlers (src/controllers/albums.mjs, src/controllers/photos.mjs) are not modelled. They are thin datastore wrappers, and each constructor is reduced to "registers or throws".
- src/controllers/users.mjs and src/config.mjs are not part of this model. The users constructor's outcome is a parameter, and the configuration table is an input.
- src/controllers/routes.mjs duplicates the controller wiring of `routes()` and is never used.
- index.mjs (TLS key reads, port choice, listen) is transport binding outside this model.

=== FILE: auth.dfy ===
/** The bearer-token gate `verifyJWT` (src/middleware/auth.mjs): it classifies
    the `Authorization` header, extracts the token, picks the signing secret,
    consults the token verifier once, and either answers the request itself
    (401, 403 or 500) or attaches the decoded claims and hands on to `next`.

    `jwt.verify` is an oracle: with a string secret it invokes its callback
    before returning, so one call yields decoded claims, an error passed to the
    callback, or an exception thrown before the callback runs. */
module Auth {
  import opened Wrappers
  import opened Strings
  import opened Http

  const BearerPrefix: string := "Bearer "
  /** The secret used when `JWT_SECRET` is unset or empty. */
  const DefaultSecret: string := "efrei"

  const MissingMessage: string := "Token manquant ou mal formé"
  const InvalidMessage: string := "Token invalide"
  const InternalMessage: string := "Erreur interne"

  /** The value of `req.headers.authorization` when it is present: a string,
      or some other JavaScript value of the given truthiness. */
  datatype HeaderValue = Text(text: string) | NonText(truthy: bool)

  /** The decoded token payload. */
  datatype Claims = Claims(fields: map<string, string>)

  /** The parts of a request the gate reads or writes. */
  datatype Request = Request(authorization: Option<HeaderValue>, user: Option<Claims>)

  /** What one call of `jwt.verify(token, secret, callback)` does. */
  datatype VerifyResult =
    | Decoded(claims: Claims)   // callback(null, decoded)
    | Rejected(reason: string)  // callback(err): bad signature, expired, malformed
    | Raised(reason: string)    // throws before the callback runs

  /** The request after the gate, the response it wrote if any, and how many
      times it called `next`. */
  datatype Exchange = Exchange(request: Request, response: Option<Response>, nextCalls: nat)

  /** The gate's decision, one per branch of the handler. */
  datatype Verdict = MissingOrMalformed | Invalid | Internal | Accepted(claims: Claims)

  const Unauthorized: Response := Response(401, ErrorBody(MissingMessage))
  const Forbidden: Response := Response(403, ErrorBody(InvalidMessage))
  const InternalError: Response := Response(500, ErrorBody(InternalMessage))

  /** JavaScript truthiness of `req.headers.authorization`. */
  predicate HeaderTruthy(a: Option<HeaderValue>)
  {
    match a
    case None => false
    case Some(Text(t)) => t != ""
    case Some(NonText(truthy)) => truthy
  }

  /** The header is a string starting with exactly `"Bearer "`. */
  predicate IsBearer(a: Option<HeaderValue>)
  {
    a.Some? && a.value.Text? && StartsWith(a.value.text, BearerPrefix)
  }

  /** The header fails the guard `!authHeader || !authHeader.startsWith('Bearer ')`
      without throwing: it is falsy, or a string without the prefix. */
  predicate IsMissingOrMalformed(a: Option<HeaderValue>)
  {
    !HeaderTruthy(a) || (a.Some? && a.value.Text? && !StartsWith(a.value.text, BearerPrefix))
  }

  /** `authHeader.split(' ')[1]`: the text after the prefix up to the next
      space. The prefix guarantees the split has a second field. */
  function Token(header: string): (token: string)
    requires StartsWith(header, BearerPrefix)
    ensures var rest := header[|BearerPrefix|..]; token == rest[..IndexOf(rest, ' ')]
    ensures ' ' !in token
  {
    var rest := header[|BearerPrefix|..];
    assert header == "Bearer" + [' '] + rest;
    SplitAfterWord("Bearer", ' ', rest);
    SplitHead(rest, ' ');
    Split(header, ' ')[1]
  }

  /** `process.env.JWT_SECRET || 'efrei'`. */
  function Secret(jwtSecret: Option<string>): (secret: string)
    ensures secret != ""
    ensures Truthy(jwtSecret) <==> jwtSecret.Some? && secret == jwtSecret.value
    ensures !Truthy(jwtSecret) ==> secret == DefaultSecret
  {
    OrElse(jwtSecret, DefaultSecret)
  }

  /** The branch the handler takes. A truthy header that is not a string has no
      `startsWith`, so the guard itself throws and the catch block answers. */
  function Classify(a: Option<HeaderValue>, jwtSecret: Option<string>,
                    verify: (string, string) -> VerifyResult): Verdict
  {
    if !HeaderTruthy(a) then MissingOrMalformed
    else if a.value.NonText? then Internal
    else if !StartsWith(a.value.text, BearerPrefix) then MissingOrMalformed
    else match verify(Token(a.value.text), Secret(jwtSecret))
      case Decoded(claims) => Accepted(claims)
      case Rejected(_) => Invalid
      case Raised(_) => Internal
  }

  /** `verifyJWT(req, res, next)` on a request with no response written yet. */
  function VerifyJWT(req: Request, jwtSecret: Option<string>,
                     verify: (string, string) -> VerifyResult): (r: Exchange)
    // the header is never rewritten; exactly one of "answer" and "call next"
    ensures r.request.authorization == req.authorization
    ensures r.nextCalls <= 1
    ensures r.nextCalls == 1 <==> r.response.None?
    ensures r.response.Some? ==> r.request == req && r.response.value in {Unauthorized, Forbidden, InternalError}
    // absent, empty or non-Bearer header: 401
    ensures IsMissingOrMalformed(req.authorization) ==> r == Exchange(req, Some(Unauthorized), 0)
    // a truthy non-string header makes `startsWith` throw: 500
    ensures req.authorization.Some? && req.authorization.value.NonText? && req.authorization.value.truthy
            ==> r == Exchange(req, Some(InternalError), 0)
    // a Bearer header: the verifier's answer on the extracted token and chosen secret decides
    ensures IsBearer(req.authorization) ==>
              match verify(Token(req.authorization.value.text), Secret(jwtSecret))
              case Decoded(claims) => r == Exchange(req.(user := Some(claims)), None, 1)
              case Rejected(_) => r == Exchange(req, Some(Forbidden), 0)
              case Raised(_) => r == Exchange(req, Some(InternalError), 0)
  {
    match Classify(req.authorization, jwtSecret, verify)
    case MissingOrMalformed => Exchange(req, Some(Unauthorized), 0)
    case Invalid => Exchange(req, Some(Forbidden), 0)
    case Internal => Exchange(req, Some(InternalError), 0)
    case Accepted(claims) => Exchange(req.(user := Some(claims)), None, 1)
  }

  /** On a missing or malformed header the verifier is never consulted: the
      outcome is the same whatever the verifier would say. */
  lemma VerifierNotConsulted(req: Request, jwtSecret: Option<string>,
                             v1: (string, string) -> VerifyResult, v2: (string, string) -> VerifyResult)
    requires !IsBearer(req.authorization)
    ensures VerifyJWT(req, jwtSecret, v1) == VerifyJWT(req, jwtSecret, v2)
    ensures VerifyJWT(req, jwtSecret, v1).nextCalls == 0
  {
  }

  /** On a Bearer header the verifier is consulted on exactly one question:
      two verifiers that agree on (extracted token, chosen secret) give the
      same outcome. */
  lemma VerifierSeesTokenAndSecret(req: Request, jwtSecret: Option<string>,
                                   v1: (string, string) -> VerifyResult, v2: (string, string) -> VerifyResult)
    requires IsBearer(req.authorization)
    requires v1(Token(req.authorization.value.text), Secret(jwtSecret))
             == v2(Token(req.authorization.value.text), Secret(jwtSecret))
    ensures VerifyJWT(req, jwtSecret, v1) == VerifyJWT(req, jwtSecret, v2)
  {
  }

  /** The token is the first word after the prefix: a space-free word
      followed by nothing or by a space-led remainder. With `word == "a"` and
      `more == " b"` this is `"Bearer a b"`; with `word == ""` and `more` empty
      or `" x"` it is `"Bearer "` and `"Bearer  x"`, whose token is empty. */
  lemma TokenOfWord(word: string, more: string)
    requires ' ' !in word
    requires more == [] || more[0] == ' '
    ensures Token(BearerPrefix + word + more) == word
  {
    var header := BearerPrefix + word + more;
    var rest := header[|BearerPrefix|..];
    assert rest == word + more;
    if more == [] {
      assert IndexOf(rest, ' ') == |word|;
    } else {
      assert rest[|word|] == ' ';
      assert IndexOf(rest, ' ') == |word|;
    }
    assert rest[..|word|] == word;
  }

  /** An extra word after the token is dropped. */
  lemma TokenDropsExtraWord()
    ensures Token("Bearer a b") == "a"
  {
    var header := BearerPrefix + "a" + " b";
    TokenOfWord("a", " b");
    assert header == "Bearer a b";
  }

  /** A bare prefix yields the empty token. */
  lemma TokenOfBarePrefix()
    ensures Token("Bearer ") == ""
  {
  }

  /** A doubled space after the prefix yields the empty token. */
  lemma TokenAfterDoubledSpace()
    ensures Token("Bearer  x") == ""
  {
    var header := BearerPrefix + "" + " x";
    TokenOfWord("", " x");
    assert header == "Bearer  x";
  }

  /** Headers the exact, case-sensitive prefix test rejects with 401. */
  lemma MalformedExamples(user: Option<Claims>, jwtSecret: Option<string>,
                          verify: (string, string) -> VerifyResult)
    ensures VerifyJWT(Request(None, user), jwtSecret, verify).response == Some(Unauthorized)
    ensures VerifyJWT(Request(Some(Text("")), user), jwtSecret, verify).response == Some(Unauthorized)
    ensures VerifyJWT(Request(Some(Text("bearer x")), user), jwtSecret, verify).response == Some(Unauthorized)
    ensures VerifyJWT(Request(Some(Text("Bearer")), user), jwtSecret, verify).response == Some(Unauthorized)
  {
    assert !StartsWith("bearer x", BearerPrefix) by { assert "bearer x"[..7][0] != BearerPrefix[0]; }
  }

  /** The three answers the gate can write are told apart by status alone, and
      each carries its message under `error`. */
  lemma AnswersDistinct()
    ensures Unauthorized != Forbidden && Forbidden != InternalError && Unauthorized != InternalError
    ensures Unauthorized.status == 401 && Forbidden.status == 403 && InternalError.status == 500
    ensures Get(Unauthorized.body, "error") == Some(JString(MissingMessage))
    ensures Get(Forbidden.body, "error") == Some(JString(InvalidMessage))
    ensures Get(InternalError.body, "error") == Some(JString(InternalMessage))
  {
  }
}

=== FILE: http.dfy ===
/** JSON response bodies and HTTP responses, as `res.status(code).json(body)`
    writes them. */
module Http {
  import opened Wrappers

  /** The JSON values the modelled handlers write. An object keeps its members
      in insertion order. */
  datatype Json =
    | JString(s: string)
    | JNumber(n: int)
    | JObject(members: seq<(string, Json)>)

  datatype Response = Response(status: nat, body: Json)

  /** The value stored under `key` among `members`, the first one if repeated. */
  function Lookup(members: seq<(string, Json)>, key: string): (r: Option<Json>)
    ensures r.Some? ==> exists i :: 0 <= i < |members| && members[i] == (key, r.value)
    ensures r.None? ==> forall i :: 0 <= i < |members| ==> members[i].0 != key
  {
    if |members| == 0 then None
    else if members[0].0 == key then Some(members[0].1)
    else Lookup(members[1..], key)
  }

  /** `body[key]` read back by a client; `None` when the body is not an object
      or has no such member. */
  function Get(body: Json, key: string): Option<Json>
  {
    if body.JObject? then Lookup(body.members, key) else None
  }

  /** The `{ error: message }` body shared by the gate and the error handler. */
  function ErrorBody(message: string): (body: Json)
    ensures Get(body, "error") == Some(JString(message))
    ensures forall key :: key != "error" ==> Get(body, key) == None
  {
    JObject([("error", JString(message))])
  }
}

=== FILE: server.dfy ===
/** The `Server` class (src/server.mjs): configuration selection, the startup
    sequence `run()` and the responses of the handlers it installs.

    The Express application is an append-only list of stage descriptors in
    registration order; dispatch is not modelled. The database driver, the
    controllers' constructors and the clock are parameters. */
module Server {
  import opened Wrappers
  import opened Strings
  import opened Http

  /** One entry of the configuration table; `kind` is the entry's `type`.
      The table itself (src/config.mjs) is not part of this model. */
  datatype Config = Config(kind: string, port: int, mongodb: string)

  const Development: string := "development"
  const Production: string := "production"
  const RedactedMessage: string := "Erreur interne serveur"

  const RateLimitWindowMs: nat := 60 * 60 * 1000
  const RateLimitMax: nat := 100
  const RateLimitMessage: string := "Trop de requêtes, réessayez plus tard."
  const CorsMethods: seq<string> := ["GET", "POST", "PUT", "DELETE", "OPTIONS"]
  const CorsHeaders: seq<string> := ["Content-Type", "Authorization"]
  const DefaultOrigin: string := "*"

  /** A thrown JavaScript value; `message` is `undefined` for a thrown value
      that is not an `Error`. */
  datatype Fault = Fault(message: Option<string>)

  /** `this.config.mongodb` / `this.config.type` / `connect.model` read through `undefined`. */
  const NoConfigForMongo: Fault := Fault(Some("Cannot read properties of undefined (reading 'mongodb')"))
  const NoConfigForType: Fault := Fault(Some("Cannot read properties of undefined (reading 'type')"))
  const NoConnection: Fault := Fault(Some("Cannot read properties of undefined (reading 'model')"))

  datatype Resource = Users | Albums | Photos

  /** What one `app.use` / `app.get` / controller construction registers. */
  datatype Stage =
    | Helmet
    | RateLimiter(windowMs: nat, max: nat, standardHeaders: bool, legacyHeaders: bool, message: Json)
    | Compression
    | Cors(origin: string, methods: seq<string>, allowedHeaders: seq<string>)
    | UrlEncodedParser(extended: bool)
    | JsonParser
    | RequestLogger
    | Controller(resource: Resource, connection: Option<nat>)
    | StatusRoute
    | NotFoundHandler
    | TerminalErrorHandler(config: Config)

  /** The Express application: its stages, and the settings turned off. */
  datatype App = App(stages: seq<Stage>, disabled: set<string>)

  datatype LogEntry = DbConnected | DbConnectFailed(fault: Fault) | ServerFailed(fault: Fault)

  /** The server object: `app`, `config`, `connect` (a connection handle, or
      `undefined`) and the console output so far. */
  datatype Server = Server(app: App, config: Option<Config>, connection: Option<nat>, log: seq<LogEntry>)

  /** What awaiting `mongoose.createConnection(host, …)` yields: a connection,
      or a rejection. A failure that the driver reports later as an `error`
      event, after a connection object has been returned, is `Connected`. */
  datatype ConnectOutcome = Connected(handle: nat) | ConnectFailed(fault: Fault)

  /** Everything `run()` consults that the server does not own: the database
      driver, `ALLOWED_ORIGINS`, and whether a controller's constructor throws
      for a reason other than a missing connection. The album and photo
      controllers are consulted only when a connection exists; for the users
      controller, whose source is not part of this model, the answer is the
      whole story whatever the connection. */
  datatype Environment = Environment(
    connector: string -> ConnectOutcome,
    allowedOrigins: Option<string>,
    constructorFault: Resource -> Option<Fault>)

  /** `run()` resolves with the app, or rejects after logging. */
  datatype RunResult = Ready(app: App, server: Server) | Aborted(fault: Fault, log: seq<LogEntry>)

  /** `process.argv[2]` used as a property key: a missing argument is
      `undefined`, which JavaScript turns into the key "undefined". */
  function ConfigKey(argv: seq<string>): string
  {
    if |argv| > 2 then argv[2] else "undefined"
  }

  /** `config[process.argv[2]] || config.development`; entries are objects and
      so truthy whenever present. */
  function SelectConfig(table: map<string, Config>, argv: seq<string>): (r: Option<Config>)
    ensures ConfigKey(argv) in table ==> r == Some(table[ConfigKey(argv)])
    ensures ConfigKey(argv) !in table && Development in table ==> r == Some(table[Development])
    ensures r.None? <==> ConfigKey(argv) !in table && Development !in table
  {
    var key := ConfigKey(argv);
    if key in table then Some(table[key])
    else if Development in table then Some(table[Development])
    else None
  }

  /** `new Server()`. */
  function NewServer(table: map<string, Config>, argv: seq<string>): (s: Server)
    ensures s.app == App([], {}) && s.connection.None? && s.log == []
    ensures s.config == SelectConfig(table, argv)
  {
    Server(App([], {}), SelectConfig(table, argv), None, [])
  }

  /** `dbConnect()`: never throws. A failure, including reading `mongodb`
      through a missing config, is logged and `connect` is left as it was. */
  function DbConnect(s: Server, connector: string -> ConnectOutcome): (r: Server)
    ensures r.app == s.app && r.config == s.config
    ensures |r.log| == |s.log| + 1 && r.log[..|s.log|] == s.log
    ensures s.config.None? ==> r.connection == s.connection && r.log[|s.log|] == DbConnectFailed(NoConfigForMongo)
    ensures s.config.Some? ==>
              match connector(s.config.value.mongodb)
              case Connected(h) => r.connection == Some(h) && r.log[|s.log|] == DbConnected
              case ConnectFailed(f) => r.connection == s.connection && r.log[|s.log|] == DbConnectFailed(f)
  {
    if s.config.None? then s.(log := s.log + [DbConnectFailed(NoConfigForMongo)])
    else match connector(s.config.value.mongodb)
      case Connected(h) => s.(connection := Some(h), log := s.log + [DbConnected])
      case ConnectFailed(f) => s.(log := s.log + [DbConnectFailed(f)])
  }

  /** The rate limiter `security()` installs: 100 requests per hour, standard
      `RateLimit-*` headers on, legacy `X-RateLimit-*` headers off. */
  const Limiter: Stage := RateLimiter(RateLimitWindowMs, RateLimitMax, true, false, ErrorBody(RateLimitMessage))

  /** `security()`: helmet, `x-powered-by` off, then the rate limiter. */
  function Security(s: Server): (r: Server)
    ensures r.config == s.config && r.connection == s.connection && r.log == s.log
    ensures r.app.stages == s.app.stages + [Helmet, Limiter]
    ensures r.app.disabled == s.app.disabled + {"x-powered-by"}
  {
    s.(app := App(s.app.stages + [Helmet, Limiter], s.app.disabled + {"x-powered-by"}))
  }

  /** `middleware()`: compression, CORS, both body parsers, then the request
      logger in a development configuration. Reading `this.config.type`
      throws when there is no config. */
  function Middleware(s: Server, allowedOrigins: Option<string>): (r: Result<Server, Fault>)
    ensures r.Failure? <==> s.config.None?
    ensures r.Failure? ==> r.error == NoConfigForType
    ensures r.Success? ==>
              && r.value.config == s.config && r.value.connection == s.connection && r.value.log == s.log
              && |s.app.stages| <= |r.value.app.stages|
              && r.value.app.stages[..|s.app.stages|] == s.app.stages
              && (RequestLogger in r.value.app.stages[|s.app.stages|..] <==> s.config.value.kind == Development)
  {
    var cors := Cors(OrElse(allowedOrigins, DefaultOrigin), CorsMethods, CorsHeaders);
    var stages := s.app.stages + [Compression, cors, UrlEncodedParser(true), JsonParser];
    if s.config.None? then Failure(NoConfigForType)
    else
      var logger := if s.config.value.kind == Development then [RequestLogger] else [];
      var r := s.(app := s.app.(stages := stages + logger));
      assert r.app.stages[|s.app.stages|..] == [Compression, cors, UrlEncodedParser(true), JsonParser] + logger;
      Success(r)
  }

  /** `new Users|Albums|Photos(this.app, this.connect)`. The album and photo
      controllers call `connect.model(...)` first, so they throw on a missing
      connection; src/controllers/users.mjs is not part of this model and its
      constructor is left to the environment. */
  function Construct(s: Server, resource: Resource, env: Environment): (r: Result<Server, Fault>)
    ensures resource != Users && s.connection.None? ==> r == Failure(NoConnection)
    ensures (resource == Users || s.connection.Some?) && env.constructorFault(resource).Some?
            ==> r == Failure(env.constructorFault(resource).value)
    ensures r.Success? <==> (resource == Users || s.connection.Some?) && env.constructorFault(resource).None?
    ensures r.Success? ==>
              r.value == s.(app := s.app.(stages := s.app.stages + [Controller(resource, s.connection)]))
  {
    if resource != Users && s.connection.None? then Failure(NoConnection)
    else if env.constructorFault(resource).Some? then Failure(env.constructorFault(resource).value)
    else Success(s.(app := s.app.(stages := s.app.stages + [Controller(resource, s.connection)])))
  }

  /** `routes()`: the three controllers, `GET /status`, then the 404 catch-all. */
  function Routes(s: Server, env: Environment): (r: Result<Server, Fault>)
    // it succeeds exactly with a connection and no constructor throwing
    ensures r.Success? <==> s.connection.Some? && env.constructorFault(Users).None?
                            && env.constructorFault(Albums).None? && env.constructorFault(Photos).None?
    ensures r.Success? ==>
              r.value == s.(app := s.app.(stages := s.app.stages +
                [ Controller(Users, s.connection), Controller(Albums, s.connection),
                  Controller(Photos, s.connection), StatusRoute, NotFoundHandler ]))
    // otherwise it fails with the first constructor's error, in construction order
    ensures env.constructorFault(Users).Some? ==> r == Failure(env.constructorFault(Users).value)
    ensures env.constructorFault(Users).None? && s.connection.None? ==> r == Failure(NoConnection)
    ensures env.constructorFault(Users).None? && s.connection.Some? && env.constructorFault(Albums).Some?
            ==> r == Failure(env.constructorFault(Albums).value)
    ensures (env.constructorFault(Users).None? && s.connection.Some? && env.constructorFault(Albums).None?
             && env.constructorFault(Photos).Some?)
            ==> r == Failure(env.constructorFault(Photos).value)
  {
    var s1 :- Construct(s, Users, env);
    var s2 :- Construct(s1, Albums, env);
    var s3 :- Construct(s2, Photos, env);
    Success(s3.(app := s3.app.(stages := s3.app.stages + [StatusRoute, NotFoundHandler])))
  }

  /** The stages a successful `run()` adds, in order, written out flat. */
  function ExpectedStages(config: Config, allowedOrigins: Option<string>, connection: nat): seq<Stage>
  {
    [ Helmet,
      RateLimiter(RateLimitWindowMs, RateLimitMax, true, false, ErrorBody(RateLimitMessage)),
      Compression,
      Cors(OrElse(allowedOrigins, DefaultOrigin), CorsMethods, CorsHeaders),
      UrlEncodedParser(true),
      JsonParser ]
    + (if config.kind == Development then [RequestLogger] else [])
    + [ Controller(Users, Some(connection)),
        Controller(Albums, Some(connection)),
        Controller(Photos, Some(connection)),
        StatusRoute,
        NotFoundHandler,
        TerminalErrorHandler(config) ]
  }

  /** `run()`: connect, secure, middleware, routes, the terminal error handler,
      then hand back the app; any throw is logged and rethrown. */
  function Run(s: Server, env: Environment): (r: RunResult)
    ensures var c := DbConnect(s, env.connector).connection;
            r.Ready? <==> (s.config.Some? && c.Some? && env.constructorFault(Users).None?
                           && env.constructorFault(Albums).None? && env.constructorFault(Photos).None?)
    ensures r.Ready? ==>
              && r.app == r.server.app
              && r.app.stages == s.app.stages + ExpectedStages(s.config.value, env.allowedOrigins,
                                                                 DbConnect(s, env.connector).connection.value)
              && r.app.disabled == s.app.disabled + {"x-powered-by"}
    // the returned server keeps its config and what `dbConnect()` left
    ensures r.Ready? ==> r.server == DbConnect(s, env.connector).(app := r.app)
    ensures r.Aborted? ==> r.log == DbConnect(s, env.connector).log + [ServerFailed(r.fault)]
    // the error rethrown is the one the failing stage threw
    ensures s.config.None? ==> r.Aborted? && r.fault == NoConfigForType
    ensures s.config.Some? && env.constructorFault(Users).Some?
            ==> r.Aborted? && r.fault == env.constructorFault(Users).value
    ensures var c := DbConnect(s, env.connector).connection;
            s.config.Some? && env.constructorFault(Users).None? && c.None?
            ==> r.Aborted? && r.fault == NoConnection
    ensures var c := DbConnect(s, env.connector).connection;
            (s.config.Some? && env.constructorFault(Users).None? && c.Some?
             && env.constructorFault(Albums).Some?)
            ==> r.Aborted? && r.fault == env.constructorFault(Albums).value
    ensures var c := DbConnect(s, env.connector).connection;
            (s.config.Some? && env.constructorFault(Users).None? && c.Some?
             && env.constructorFault(Albums).None? && env.constructorFault(Photos).Some?)
            ==> r.Aborted? && r.fault == env.constructorFault(Photos).value
  {
    var s1 := DbConnect(s, env.connector);
    var s2 := Security(s1);
    match Middleware(s2, env.allowedOrigins)
    case Failure(f) => Aborted(f, s2.log + [ServerFailed(f)])
    case Success(s3) =>
      match Routes(s3, env)
      case Failure(f) => Aborted(f, s3.log + [ServerFailed(f)])
      case Success(s4) =>
        var s5 := s4.(app := s4.app.(stages := s4.app.stages + [TerminalErrorHandler(s4.config.value)]));
        Ready(s5.app, s5)
  }

  /** The terminal error handler's answer to a fault reaching it. */
  function HandleError(config: Config, fault: Fault): (r: Response)
    ensures r.status == 500
    ensures config.kind == Production ==> r.body == ErrorBody(RedactedMessage)
    ensures config.kind != Production && fault.message.Some? ==> r.body == ErrorBody(fault.message.value)
    // `{ error: undefined }` serialises as `{}`
    ensures config.kind != Production && fault.message.None? ==> r.body == JObject([])
  {
    var message := if config.kind == Production then Some(RedactedMessage) else fault.message;
    Response(500, match message case Some(m) => ErrorBody(m) case None => JObject([]))
  }

  /** `GET /status` at clock reading `now` (an ISO 8601 string). */
  function StatusResponse(now: string): (r: Response)
    ensures r.status == 200
    ensures Get(r.body, "status") == Some(JString("online"))
    ensures Get(r.body, "timestamp") == Some(JString(now))
    ensures forall key :: key != "status" && key != "timestamp" ==> Get(r.body, key) == None
  {
    var members := [("status", JString("online")), ("timestamp", JString(now))];
    assert Lookup(members, "timestamp") == Lookup(members[1..], "timestamp");
    Response(200, JObject(members))
  }

  /** The catch-all answer to an unmatched request. */
  function NotFound(): (r: Response)
    ensures r.status == 404
    ensures Get(r.body, "code") == Some(JNumber(404))
    ensures Get(r.body, "message") == Some(JString("Not Found"))
    ensures forall key :: key != "code" && key != "message" ==> Get(r.body, key) == None
  {
    Response(404, JObject([("code", JNumber(404)), ("message", JString("Not Found"))]))
  }

  /** A successful start registers the request logger exactly when the
      configuration is a development one. */
  lemma LoggerIffDevelopment(s: Server, env: Environment)
    requires Run(s, env).Ready?
    ensures var added := Run(s, env).app.stages[|s.app.stages|..];
            RequestLogger in added <==> s.config.value.kind == Development
  {
  }

  /** After a successful start the terminal error handler is the last stage,
      appears once, and every other stage it adds comes before it. */
  lemma ErrorHandlerLast(s: Server, env: Environment)
    requires Run(s, env).Ready?
    ensures var stages := Run(s, env).app.stages;
            && |stages| > |s.app.stages|
            && stages[|stages| - 1] == TerminalErrorHandler(s.config.value)
            && forall i :: |s.app.stages| <= i < |stages| - 1 ==> !stages[i].TerminalErrorHandler?
  {
  }

  /** The 404 catch-all is registered after every route: the controllers and
      `GET /status` all come before it. */
  lemma CatchAllAfterRoutes(s: Server, env: Environment)
    requires Run(s, env).Ready?
    ensures var stages := Run(s, env).app.stages;
            && |stages| >= |s.app.stages| + 6
            && stages[|stages| - 2] == NotFoundHandler
            && stages[|stages| - 3] == StatusRoute
            && stages[|stages| - 4].Controller? && stages[|stages| - 4].resource == Photos
            && stages[|stages| - 5].Controller? && stages[|stages| - 5].resource == Albums
            && stages[|stages| - 6].Controller? && stages[|stages| - 6].resource == Users
  {
  }

  /** `dbConnect()` swallowing a failed first connection does not let startup
      finish: the album controller then reads `model` through `undefined`, and
      `run()` rejects with that error after logging both failures. */
  lemma FailedConnectionAbortsInRoutes(s: Server, env: Environment, f: Fault)
    requires s.config.Some? && s.connection.None?
    requires env.connector(s.config.value.mongodb) == ConnectFailed(f)
    requires env.constructorFault(Users).None?
    ensures Run(s, env) == Aborted(NoConnection, s.log + [DbConnectFailed(f), ServerFailed(NoConnection)])
  {
  }

  /** With a live connection and constructors that do not throw, `run()`
      resolves, keeps the handle and logs only the successful connection. */
  lemma ConnectedStartupSucceeds(s: Server, env: Environment, h: nat)
    requires s.config.Some?
    requires env.connector(s.config.value.mongodb) == Connected(h)
    requires forall res :: env.constructorFault(res).None?
    ensures Run(s, env).Ready?
    ensures Run(s, env).server.connection == Some(h)
    ensures Run(s, env).server.log == s.log + [DbConnected]
  {
  }

  /** The handler reveals a fault's message exactly outside production. */
  lemma RedactionIffProduction(config: Config, fault: Fault)
    requires fault.message.Some? && fault.message.value != RedactedMessage
    ensures Get(HandleError(config, fault).body, "error") == Some(JString(fault.message.value))
            <==> config.kind != Production
  {
  }

  /** Repeated `GET /status` answers differ in the timestamp and nothing else. */
  lemma StatusDiffersOnlyInTimestamp(t1: string, t2: string, key: string)
    requires key != "timestamp"
    ensures StatusResponse(t1).status == StatusResponse(t2).status
    ensures Get(StatusResponse(t1).body, key) == Get(StatusResponse(t2).body, key)
  {
  }
}

=== FILE: strings.dfy ===
/** The JavaScript string operations the request gate relies on:
    `String.prototype.startsWith`, `String.prototype.split` with a one-character
    separator, `Array.prototype.join`, and truthiness of an optional string. */
module Strings {
  import opened Wrappers

  /** `s.startsWith(prefix)`: case-sensitive, character by character. */
  predicate StartsWith(s: string, prefix: string)
  {
    |prefix| <= |s| && s[..|prefix|] == prefix
  }

  /** JavaScript truthiness of a value that is either `undefined` or a string:
      `undefined` and `""` are falsy. */
  predicate Truthy(v: Option<string>)
  {
    v.Some? && v.value != ""
  }

  /** `v || fallback` for a value that is either `undefined` or a string. */
  function OrElse(v: Option<string>, fallback: string): string
  {
    if Truthy(v) then v.value else fallback
  }

  /** Position of the first `c` in `s`, or `|s|` when `s` has none. */
  function IndexOf(s: string, c: char): (i: nat)
    ensures i <= |s|
    ensures i < |s| ==> s[i] == c
    ensures forall k :: 0 <= k < i ==> s[k] != c
  {
    if |s| == 0 then 0
    else if s[0] == c then 0
    else 1 + IndexOf(s[1..], c)
  }

  /** `s.split(sep)` for a one-character separator: the maximal runs between
      separators, including empty ones at either end and between adjacent
      separators. */
  function Split(s: string, sep: char): (fields: seq<string>)
    ensures |fields| == multiset(s)[sep] + 1
    ensures forall i :: 0 <= i < |fields| ==> sep !in fields[i]
  {
    assert s == [] || s == [s[0]] + s[1..];
    if |s| == 0 then [""]
    else
      var rest := Split(s[1..], sep);
      if s[0] == sep then [""] + rest
      else [[s[0]] + rest[0]] + rest[1..]
  }

  /** `fields.join(sep)` for a one-character separator. */
  function Join(fields: seq<string>, sep: char): string
  {
    if |fields| == 0 then ""
    else if |fields| == 1 then fields[0]
    else fields[0] + [sep] + Join(fields[1..], sep)
  }

  /** Joining the fields of a split restores the string. */
  lemma {:induction false} JoinSplit(s: string, sep: char)
    ensures Join(Split(s, sep), sep) == s
    decreases |s|
  {
    if |s| > 0 {
      var rest := Split(s[1..], sep);
      JoinSplit(s[1..], sep);
      if s[0] == sep {
        JoinAfterEmpty(rest, sep);
      } else {
        JoinAfterChar(s[0], rest, sep);
      }
      assert s == [s[0]] + s[1..];
    }
  }

  /** An empty first field contributes only its separator. */
  lemma JoinAfterEmpty(fields: seq<string>, sep: char)
    requires |fields| >= 1
    ensures Join([""] + fields, sep) == [sep] + Join(fields, sep)
  {
  }

  /** A character prepended to the first field is prepended to the join. */
  lemma JoinAfterChar(c: char, fields: seq<string>, sep: char)
    requires |fields| >= 1
    ensures Join([[c] + fields[0]] + fields[1..], sep) == [c] + Join(fields, sep)
  {
    var longer := [[c] + fields[0]] + fields[1..];
    if |fields| > 1 {
      assert longer[1..] == fields[1..];
      assert Join(longer, sep) == ([c] + fields[0]) + [sep] + Join(fields[1..], sep);
    }
  }

  /** A string without a separator is a single field. */
  lemma {:induction false} SplitWord(w: string, sep: char)
    requires sep !in w
    ensures Split(w, sep) == [w]
    decreases |w|
  {
    if |w| > 0 {
      SplitWord(w[1..], sep);
      assert [w[0]] + w[1..] == w;
    }
  }

  /** A separator-free word followed by a separator becomes the first field. */
  lemma {:induction false} SplitAfterWord(w: string, sep: char, t: string)
    requires sep !in w
    ensures Split(w + [sep] + t, sep) == [w] + Split(t, sep)
    decreases |w|
  {
    var s := w + [sep] + t;
    if |w| == 0 {
      assert s == [sep] + t;
      assert s[1..] == t;
    } else {
      assert s[1..] == w[1..] + [sep] + t;
      SplitAfterWord(w[1..], sep, t);
      assert [w[0]] + w[1..] == w;
    }
  }

  /** Splitting the join of separator-free fields gives the fields back. */
  lemma {:induction false} SplitJoin(fields: seq<string>, sep: char)
    requires |fields| >= 1
    requires forall i :: 0 <= i < |fields| ==> sep !in fields[i]
    ensures Split(Join(fields, sep), sep) == fields
    decreases |fields|
  {
    if |fields| == 1 {
      SplitWord(fields[0], sep);
    } else {
      SplitJoin(fields[1..], sep);
      SplitAfterWord(fields[0], sep, Join(fields[1..], sep));
      assert [fields[0]] + fields[1..] == fields;
    }
  }

  /** The first field of a split is the text before the first separator. */
  lemma {:induction false} SplitHead(s: string, sep: char)
    ensures Split(s, sep)[0] == s[..IndexOf(s, sep)]
    decreases |s|
  {
    if |s| > 0 && s[0] != sep {
      SplitHead(s[1..], sep);
      assert s[..IndexOf(s, sep)] == [s[0]] + s[1..][..IndexOf(s[1..], sep)];
    }
  }
}

=== FILE: wrappers.dfy ===
/** Wrappers shared by the model: an optional value, and a value-or-error
    result that works with `:-`. */
module Wrappers {

  /** A value that may be absent (JavaScript `undefined`). */
  datatype Option<+T> = None | Some(value: T)

  /** The outcome of a step that can throw: its value, or the thrown error. */
  datatype Result<+T, +E> = Success(value: T) | Failure(error: E) {

    predicate IsFailure()
    {
      Failure?
    }

    /** The same thrown error, as the outcome of the enclosing step. */
    function PropagateFailure<U>(): Result<U, E>
      requires Failure?
    {
      Failure(error)
    }

    function Extract(): T
      requires Success?
    {
      value
    }
  }
}
